=== FILE: README.md ===
# Face gallery matcher: a Dafny model

This project models the logic that the face verification service owns in
`app/main.py`. The service keeps an in-memory list of known faces, FACE_DB.
Each entry holds a file name and that file's face embedding. The list is
written in three ways:

- the startup scan (`preload_faces`) rebuilds it from a directory listing;
- the directory watcher's creation handler (`on_created`) appends to it;
- the manual upload endpoint (`add_face`) saves an image under `<name>.jpg`.
  When that file did not already exist, the name has no '/', and extraction
  of the saved file succeeds, the watcher then picks it up. Otherwise the
  upload is never loaded, although the endpoint's reply says it will be.

The `/verify` endpoint scans the list once for the entry nearest to the query
embedding. It reports a match only when that distance is strictly below 0.4.

Two black boxes are parameters of the model:

- the face extractor is an `Extractor = string -> Option<Embedding>`, applied
  to a file path, where `None` stands for any exception it raises;
- cosine distance is a `Metric = (Embedding, Embedding) -> real`.

Everything else is sequence and string reasoning.

Modules:

- `Wrappers` (`wrappers.dfy`): `Option`.
- `Paths` (`paths.dfy`): ASCII lower-casing, `str.endswith`, the image
  filter, and POSIX `os.path.join` and `os.path.basename`.
- `Store` (`store.dfy`): face records, the startup scan (as a function and as
  the loop `preload_faces` runs), the watcher's handler, a replay of several events, and
  the `add_face` file name.
- `Matcher` (`matcher.dfy`): the first-minimum scan, the threshold decision,
  and the loop of `verify_face` with its `float("inf")` sentinel.

The code decides two points where one might expect something else, and the
model follows the code on both:

- A record's name is the full file name with its extension (`alice.jpg`),
  not the stem. So an upload through `add_face` named `alice` is reported as
  `alice.jpg`.
- Records are only ever appended. Creating a file with a name already in the
  list adds a second entry and leaves the old one in place. There is no
  replace-by-identity and no removal.

## Model

| member | source | states |
|---|---|---|
| Paths.Lower | app/main.py:25 | `str.lower` on ASCII letters only, which keeps the length; full Unicode lower-casing can change it and is left out (see the `Paths.IsImageName` line under "Left out") |
| Paths.IsImageName | app/main.py:25 | the filter itself: the lower-cased name ends in `.jpg`, `.jpeg` or `.png`; its own definition carries no contract, and `ImageNameIffExtension`, `ImageNameIgnoresCase` and `PathFilterAgreesWithNameFilter` state what it means |
| Paths.Join | app/main.py:26 | `os.path.join` of two components with POSIX rules; it has no contract of its own, and `JoinEndsWithName` and `BasenameOfJoin` state its properties |
| Paths.ImageNameIffExtension | app/main.py:25 | a name passes the filter iff its last characters, compared case-insensitively, are `.jpg`, `.jpeg` or `.png` |
| Paths.LowerEndsWith | app/main.py:25 | lower-casing and then testing a suffix is the same as a case-insensitive suffix test |
| Paths.ImageNameIgnoresCase | app/main.py:45 | upper-casing a name never changes the filter's verdict |
| Paths.PathFilterAgreesWithNameFilter | app/main.py:45-48 | the watcher's filter on the full event path gives the same verdict as the preload filter on the basename that becomes the record's name |
| Paths.JoinEndsWithName | app/main.py:26 | `os.path.join(dir, f)` ends with `f`, and a slash-free `f` is preceded by a slash (or is the whole path) |
| Paths.Basename | app/main.py:48 | the basename is the longest slash-free suffix of the path |
| Paths.BasenameUnique | app/main.py:48 | any slash-free suffix preceded by a slash, or equal to the whole path, is the basename |
| Paths.BasenameOfJoin | app/main.py:26 | the basename of `join(dir, f)` is `f` for a plain file name `f` |
| Store.LoadOne | app/main.py:25-32 | one listing entry's contribution to the scan (a record when the name passes the filter and extraction succeeds, else nothing); it has no contract of its own, and `FileEventLikeLoadOne` relates it to the watcher |
| Store.Preload | app/main.py:20-34 | its own contract is only that the scan keeps no more records than listing entries; `PreloadMembership`, `PreloadConcat`, `SkippedFileDoesNotAbort`, `PreloadKeepsImageNames` and `PreloadFaces` state what it means |
| Store.PreloadSnoc | app/main.py:24-32 | scanning one more listing entry appends exactly that entry's contribution |
| Store.PreloadMembership | app/main.py:24-32 | a record is in FACE_DB after preload iff its name is listed, passes the filter, and extracting `dir/name` yields its embedding |
| Store.PreloadConcat | app/main.py:24-34 | the scan keeps listing order: scanning `a ++ b` gives the records of `a` followed by those of `b` |
| Store.SkippedFileDoesNotAbort | app/main.py:27-34 | a file rejected by the filter or whose extraction fails contributes nothing, and the files after it are still loaded |
| Store.PreloadKeepsImageNames | app/main.py:25-32 | every record the scan keeps is named by an image file |
| Store.PreloadFaces | app/main.py:20-34 | the clear-then-loop scan of `preload_faces` in app/main.py builds exactly the list `Preload` describes |
| Store.OnCreated | app/main.py:41-56 | existing records are kept as they are; exactly one record is appended iff the event is not a directory, the path passes the filter and extraction succeeds; that record is named by the path's basename and holds the extracted embedding |
| Store.OnCreatedKeepsImageNames | app/main.py:45-53 | the handler keeps every record named by an image file |
| Store.OnCreatedAppendsDuplicate | app/main.py:50-53 | a successful event adds one more entry under the basename and keeps the others; nothing is replaced |
| Store.Replay | app/main.py:41-56 | the watcher calling `on_created` once per creation event, in order; it has no contract of its own, and `ReplayOnlyAppends`, `RecreatedFileKeepsStaleRecord` and `PreloadAgreesWithWatcher` state what it means |
| Store.ReplayOnlyAppends | app/main.py:40-56 | over any sequence of watcher events, each read with the extractor as the file is at that moment, the earlier records stay in place and the list grows by at most one record per event in total (the per-event bound is `OnCreated`'s contract) |
| Store.OnCreatedSuccess | app/main.py:45-53 | an event that is not a directory, passes the filter and extracts appends exactly the record named by the basename |
| Store.RecreatedFileKeepsStaleRecord | app/main.py:45-53 | a file created, then created again with new content, leaves both records in the list, the stale one first, under the same name |
| Store.FileEventLikeLoadOne | app/main.py:45-53 | a creation event for `dir/f` has the same effect as the startup scan's step for `f` |
| Store.PreloadAgreesWithWatcher | app/main.py:24-53 | preloading a listing of plain files equals the watcher handling one creation event per file, in order, from an empty list |
| Store.AddFaceFilename | app/main.py:111 | the file name `<name>.jpg` always passes the image filter |
| Store.AddFaceSavePath | app/main.py:111 | the path `add_face` writes to always passes the watcher's filter |
| Store.AddFaceIsIngested | app/main.py:111 | for a plain name, when `<name>.jpg` did not already exist and extracting the saved file succeeds, the watcher's creation event turns the saved upload into one appended record named `<name>.jpg` |
| Store.AddFaceUnreadableIsIgnored | app/main.py:111-114 | when the saved upload does not extract, the watcher's creation event leaves FACE_DB unchanged, despite the reply's promise that it will be loaded |
| Matcher.BestMatch | app/main.py:91-97 | the scan finds no index iff FACE_DB is empty; otherwise it finds a record whose distance is at most every record's and strictly below every earlier record's |
| Matcher.FirstNearestUnique | app/main.py:95-97 | the first minimum is unique, so the strict comparison picks one record |
| Matcher.TieGoesToEarlier | app/main.py:95-97 | of two records at equal distance, the later is never the answer |
| Matcher.Verify | app/main.py:91-103 | matched iff some record is strictly below 0.4; a match carries the name and distance of the first nearest record; a non-match carries no identity and no distance |
| Matcher.VerifyFace | app/main.py:91-103 | the loop of `verify_face` in app/main.py, with the infinity sentinel, returns what `Verify` describes |
| Matcher.EmptyStoreIsNoMatch | app/main.py:91-103 | an empty FACE_DB gives matched = false, no identity, no distance |
| Matcher.ThresholdIsStrict | app/main.py:99-103 | a nearest distance equal to or above 0.4 gives no match, and the nearest name is withheld |
| Matcher.AppendNotNearerKeepsResult | app/main.py:93-97 | appending a record not strictly nearer than the current best changes neither the scan's choice nor the reply |
| Matcher.DuplicateDoesNotChangeResult | app/main.py:93-97 | appending an identical copy of a stored record (same name and embedding) never changes the reply; a re-created file is extracted afresh and is covered by `AppendNotNearerKeepsResult` and `AppendNearerWins` instead |
| Matcher.AppendNearerWins | app/main.py:95-97 | an appended record strictly nearer than all others becomes the scan's choice |
| Matcher.NearerOfTwoMatches | app/main.py:99-101 | with records at 0.1 and 0.5, the 0.1 record is matched |
| Matcher.FarSingleRecordIsNoMatch | app/main.py:99-103 | a single record at 0.5 gives no match |
| Matcher.IngestedFaceIsMatched | app/main.py:93-101 | after the watcher ingests a face, querying with the same embedding matches, if the metric puts a vector at distance zero from itself |

## Left out

- Face extraction (DeepFace) is a parameter of the model. Any exception it raises, including an empty result list, is `None`.
- Cosine distance (scipy) is a parameter returning a `real`. NaN for zero vectors and other floating-point behaviour are not modelled. The `float("inf")` starting distance is `None`, read as "no best yet".
- Matcher.Verify: reports the unrounded distance; `round(best_distance, 4)` is not modelled because the model has no floats.
- Paths.IsImageName: `str.lower` is modelled on the ASCII letters only, and other characters are left unchanged. Full Unicode case mapping is not modelled. It can change the length (`'İ'.lower()` has two characters), so `Paths.Lower`'s length-preserving contract holds only for this ASCII model. The filter's verdict is unaffected, because no non-ASCII character lower-cases to '.', 'j', 'p', 'e', 'g' or 'n'.
- The watchdog observer, its daemon thread, the one-second settle delay and the unsynchronised sharing of FACE_DB between threads are not modelled. Each handler call is one atomic step on an immutable list.
- HTTP handling is not modelled: uploads, the temporary query file and its removal, file writes in `add_face`, and the 500 reply when the query's extraction or a distance computation raises. Only the decision on an extracted query embedding is modelled.
- The order and contents of `os.listdir` are an input. A directory-listing failure is not modelled. Sub-directories in the listing are ordinary names whose extraction the extractor decides.
- Logging (`print`) is not modelled.
- Store.PreloadAgreesWithWatcher: stated only for listings of plain file names (no '/'), which is what `os.listdir` returns.
- Store.AddFaceIsIngested: stated only for names without '/'. A name with a slash saves outside the gallery directory or under another basename.
- Store.AddFaceIsIngested: says nothing when `<name>.jpg` already exists. Then `open(save_path, "wb")` rewrites the file, the watcher sees a modification rather than a creation, and no handler runs, because only `on_created` is overridden. The old record stays until the next restart. Modification events are not modelled.

=== FILE: matcher.dfy ===
/** The matching step of the /verify endpoint: a single scan of FACE_DB for
    the record nearest to the query embedding, then a strict threshold test. */
module Matcher {
  import opened Wrappers
  import opened Store

  /** Cosine distance between the query and a stored embedding. */
  type Metric = (Embedding, Embedding) -> real

  /** Distances strictly below this are accepted as a match. */
  const Threshold: real := 0.4

  /** The endpoint's reply: the identity and the distance are present only
      for a match. */
  datatype MatchResult = MatchResult(matched: bool, identity: Option<string>, distance: Option<real>)

  const NoMatch: MatchResult := MatchResult(false, None, None)

  /** `k` is the nearest record to `q`, and no earlier record is as near:
      the first minimum in list order. */
  predicate IsFirstNearest(db: seq<FaceRecord>, q: Embedding, dist: Metric, k: nat) {
    && k < |db|
    && (forall j :: 0 <= j < |db| ==> dist(q, db[k].embedding) <= dist(q, db[j].embedding))
    && (forall j :: 0 <= j < k ==> dist(q, db[k].embedding) < dist(q, db[j].embedding))
  }

  /** The index the scan ends on, built the way the loop runs: a later record
      takes over only when it is strictly nearer than the best so far. */
  function BestMatch(db: seq<FaceRecord>, q: Embedding, dist: Metric): (k: Option<nat>)
    ensures k.None? <==> |db| == 0
    ensures k.Some? ==> IsFirstNearest(db, q, dist, k.value)
    decreases |db|
  {
    if |db| == 0 then None
    else
      var last := |db| - 1;
      match BestMatch(db[..last], q, dist)
      case None => Some(last)
      case Some(b) =>
        if dist(q, db[last].embedding) < dist(q, db[b].embedding) then Some(last) else Some(b)
  }

  /** There is only one first minimum. */
  lemma FirstNearestUnique(db: seq<FaceRecord>, q: Embedding, dist: Metric, k1: nat, k2: nat)
    requires IsFirstNearest(db, q, dist, k1) && IsFirstNearest(db, q, dist, k2)
    ensures k1 == k2
  {
    var d1, d2 := dist(q, db[k1].embedding), dist(q, db[k2].embedding);
    assert d1 == d2;
    if k1 != k2 {
      assert false;
    }
  }

  /** The decision of /verify for a query embedding against FACE_DB. */
  function Verify(db: seq<FaceRecord>, q: Embedding, dist: Metric): (r: MatchResult)
    ensures r.matched <==> exists j :: 0 <= j < |db| && dist(q, db[j].embedding) < Threshold
    ensures !r.matched ==> r == NoMatch
    ensures r.matched ==> exists k: nat ::
      && IsFirstNearest(db, q, dist, k)
      && r.identity == Some(db[k].name)
      && r.distance == Some(dist(q, db[k].embedding))
  {
    match BestMatch(db, q, dist)
    case None => NoMatch
    case Some(k) =>
      if dist(q, db[k].embedding) < Threshold
      then MatchResult(true, Some(db[k].name), Some(dist(q, db[k].embedding)))
      else NoMatch
  }

  /** verify_face's loop as app/main.py writes it; None plays the part of the
      float("inf") starting distance. */
  method VerifyFace(db: seq<FaceRecord>, q: Embedding, dist: Metric) returns (res: MatchResult)
    ensures res == Verify(db, q, dist)
  {
    var bestMatch: Option<FaceRecord> := None;
    var bestDistance: Option<real> := None;
    ghost var bestIndex: Option<nat> := None;
    var i := 0;
    while i < |db|
      invariant 0 <= i <= |db|
      invariant bestIndex == BestMatch(db[..i], q, dist)
      invariant bestIndex.None? ==> bestMatch.None? && bestDistance.None?
      invariant bestIndex.Some? ==>
        && bestIndex.value < i
        && bestMatch == Some(db[bestIndex.value])
        && bestDistance == Some(dist(q, db[bestIndex.value].embedding))
    {
      var person := db[i];
      var d := dist(q, person.embedding);
      assert db[..i + 1][..i] == db[..i];
      if bestDistance.None? || d < bestDistance.value {
        bestDistance := Some(d);
        bestMatch := Some(person);
        bestIndex := Some(i);
      }
      i := i + 1;
    }
    assert db[..i] == db;
    if bestDistance.Some? && bestDistance.value < Threshold {
      res := MatchResult(true, Some(bestMatch.value.name), bestDistance);
    } else {
      res := NoMatch;
    }
  }

  /** An empty FACE_DB never matches, and the reply has neither an identity
      nor a distance. */
  lemma EmptyStoreIsNoMatch(q: Embedding, dist: Metric)
    ensures Verify([], q, dist) == NoMatch
  {
  }

  /** The threshold is strict: a nearest distance of exactly 0.4 is rejected,
      and the nearest record's name is withheld. */
  lemma ThresholdIsStrict(db: seq<FaceRecord>, q: Embedding, dist: Metric, k: nat)
    requires IsFirstNearest(db, q, dist, k)
    requires dist(q, db[k].embedding) >= Threshold
    ensures Verify(db, q, dist) == NoMatch
  {
  }

  /** Of two records at the same smallest distance, the later one is never
      the answer. */
  lemma TieGoesToEarlier(db: seq<FaceRecord>, q: Embedding, dist: Metric, i: nat, j: nat)
    requires i < j < |db|
    requires dist(q, db[i].embedding) == dist(q, db[j].embedding)
    ensures BestMatch(db, q, dist) != Some(j)
  {
  }

  /** Appending a record that is not strictly nearer than the current best
      leaves the reply unchanged. */
  lemma AppendNotNearerKeepsResult(db: seq<FaceRecord>, x: FaceRecord, q: Embedding, dist: Metric)
    requires BestMatch(db, q, dist).Some?
    requires dist(q, x.embedding) >= dist(q, db[BestMatch(db, q, dist).value].embedding)
    ensures BestMatch(db + [x], q, dist) == BestMatch(db, q, dist)
    ensures Verify(db + [x], q, dist) == Verify(db, q, dist)
  {
  }

  /** Appending an identical copy of a stored record (same name and same
      embedding) never changes what /verify answers: the older copy wins the
      tie. A file created again is extracted afresh, so its new record
      usually has another embedding; that case is AppendNotNearerKeepsResult
      and AppendNearerWins, and the old record stays in the list either way. */
  lemma DuplicateDoesNotChangeResult(db: seq<FaceRecord>, i: nat, q: Embedding, dist: Metric)
    requires i < |db|
    ensures Verify(db + [db[i]], q, dist) == Verify(db, q, dist)
  {
    AppendNotNearerKeepsResult(db, db[i], q, dist);
  }

  /** Appending a record strictly nearer than every stored one makes it the
      nearest. */
  lemma AppendNearerWins(db: seq<FaceRecord>, x: FaceRecord, q: Embedding, dist: Metric)
    requires forall j :: 0 <= j < |db| ==> dist(q, x.embedding) < dist(q, db[j].embedding)
    ensures BestMatch(db + [x], q, dist) == Some(|db|)
  {
  }

  /** Two records at 0.1 and 0.5 with threshold 0.4: the 0.1 record matches. */
  lemma NearerOfTwoMatches()
    ensures var dist := (q: Embedding, e: Embedding) => if |e| > 0 then e[0] else 1.0;
      Verify([FaceRecord("a.jpg", [0.1]), FaceRecord("b.jpg", [0.5])], [], dist)
        == MatchResult(true, Some("a.jpg"), Some(0.1))
  {
  }

  /** A single record at 0.5 with threshold 0.4: no match, although a
      nearest record exists. */
  lemma FarSingleRecordIsNoMatch()
    ensures var dist := (q: Embedding, e: Embedding) => if |e| > 0 then e[0] else 1.0;
      Verify([FaceRecord("b.jpg", [0.5])], [], dist) == NoMatch
  {
  }

  /** A face the watcher has just ingested is found by a query with the same
      embedding, when the metric puts a vector at distance zero from itself. */
  lemma IngestedFaceIsMatched(db: seq<FaceRecord>, ev: CreatedEvent, extract: Extractor, dist: Metric)
    requires !ev.isDirectory && Paths.IsImageName(ev.srcPath) && extract(ev.srcPath).Some?
    requires dist(extract(ev.srcPath).value, extract(ev.srcPath).value) == 0.0
    ensures Verify(OnCreated(db, ev, extract), extract(ev.srcPath).value, dist).matched
  {
  }
}

=== FILE: paths.dfy ===
/** File names and POSIX paths as the service sees them: the lower-casing,
    the image-extension filter, `os.path.join` and `os.path.basename`. */
module Paths {

  /** The gallery directory the service scans and watches. */
  const KnownFacesDir: string := "app/known_faces"

  /** `str.lower` on one character; only the ASCII letters are mapped. */
  function LowerChar(c: char): char {
    if 'A' <= c <= 'Z' then (c as int - 'A' as int + 'a' as int) as char else c
  }

  function UpperChar(c: char): char {
    if 'a' <= c <= 'z' then (c as int - 'a' as int + 'A' as int) as char else c
  }

  function Lower(s: string): (r: string)
    ensures |r| == |s|
  {
    seq(|s|, i requires 0 <= i < |s| => LowerChar(s[i]))
  }

  function Upper(s: string): (r: string)
    ensures |r| == |s|
    ensures forall i :: 0 <= i < |s| ==> r[i] == UpperChar(s[i])
  {
    seq(|s|, i requires 0 <= i < |s| => UpperChar(s[i]))
  }

  /** `str.endswith` with a single suffix. */
  predicate EndsWith(s: string, suffix: string) {
    |suffix| <= |s| && s[|s| - |suffix|..] == suffix
  }

  /** The filter of preload_faces and of the watcher: the lower-cased name ends
      in one of the three image suffixes. */
  predicate IsImageName(s: string) {
    var l := Lower(s);
    EndsWith(l, ".jpg") || EndsWith(l, ".jpeg") || EndsWith(l, ".png")
  }

  /** Reference reading of the filter, character by character: the last
      `|ext|` characters of `s` equal `ext` once case is ignored. */
  predicate EndsWithIgnoringCase(s: string, ext: string) {
    |ext| <= |s| && forall i :: 0 <= i < |ext| ==> LowerChar(s[|s| - |ext| + i]) == ext[i]
  }

  /** Lower-casing and then matching a suffix is the same as matching it
      character by character with case ignored. */
  lemma LowerEndsWith(s: string, ext: string)
    ensures EndsWith(Lower(s), ext) <==> EndsWithIgnoringCase(s, ext)
  {
    var l := Lower(s);
    if EndsWithIgnoringCase(s, ext) {
      assert l[|l| - |ext|..] == ext by {
        forall i | 0 <= i < |ext| ensures l[|l| - |ext|..][i] == ext[i] {
          assert l[|l| - |ext| + i] == LowerChar(s[|s| - |ext| + i]);
        }
      }
    }
    if EndsWith(l, ext) {
      forall i | 0 <= i < |ext| ensures LowerChar(s[|s| - |ext| + i]) == ext[i] {
        assert l[|l| - |ext|..][i] == ext[i];
      }
    }
  }

  /** The filter accepts exactly the names that end in one of the image
      extensions, ignoring case. */
  lemma ImageNameIffExtension(s: string)
    ensures IsImageName(s) <==>
      EndsWithIgnoringCase(s, ".jpg") || EndsWithIgnoringCase(s, ".jpeg") || EndsWithIgnoringCase(s, ".png")
  {
    LowerEndsWith(s, ".jpg");
    LowerEndsWith(s, ".jpeg");
    LowerEndsWith(s, ".png");
  }

  /** Upper-casing a name never changes the filter's verdict. */
  lemma ImageNameIgnoresCase(s: string)
    ensures IsImageName(Upper(s)) <==> IsImageName(s)
  {
    assert Lower(Upper(s)) == Lower(s) by {
      forall i | 0 <= i < |s| ensures Lower(Upper(s))[i] == Lower(s)[i] {
        assert LowerChar(UpperChar(s[i])) == LowerChar(s[i]);
      }
    }
  }

  /** `posixpath.join` of two components. */
  function Join(a: string, b: string): string {
    if |b| > 0 && b[0] == '/' then b
    else if |a| == 0 || a[|a| - 1] == '/' then a + b
    else a + "/" + b
  }

  /** The joined path ends with the second component, and when that
      component is a plain name it is preceded by a slash (or is everything). */
  lemma JoinEndsWithName(a: string, b: string)
    ensures EndsWith(Join(a, b), b)
    ensures '/' !in b && |b| < |Join(a, b)| ==> Join(a, b)[|Join(a, b)| - |b| - 1] == '/'
  {
  }

  /** `posixpath.basename`: the longest suffix of `p` that holds no '/'. */
  function Basename(p: string): (r: string)
    ensures '/' !in r
    ensures EndsWith(p, r)
    ensures |r| < |p| ==> p[|p| - |r| - 1] == '/'
    decreases |p|
  {
    if |p| == 0 || p[|p| - 1] == '/' then ""
    else Basename(p[..|p| - 1]) + [p[|p| - 1]]
  }

  /** A slash-free suffix that is preceded by a slash (or is all of `p`) is
      the basename. */
  lemma BasenameUnique(p: string, f: string)
    requires '/' !in f
    requires EndsWith(p, f)
    requires |f| < |p| ==> p[|p| - |f| - 1] == '/'
    ensures Basename(p) == f
  {
    var r := Basename(p);
    if |r| > |f| {
      assert false;
    } else if |r| < |f| {
      assert false;
    }
    assert r == p[|p| - |r|..] == f;
  }

  /** Joining a directory and a plain file name and taking the basename gives
      the file name back. */
  lemma BasenameOfJoin(dir: string, f: string)
    requires '/' !in f
    ensures Basename(Join(dir, f)) == f
  {
    JoinEndsWithName(dir, f);
    BasenameUnique(Join(dir, f), f);
  }

  /** When `b` is a slash-free tail of `p` preceded by a slash, `p` and `b`
      end in the same slash-free suffix. */
  lemma EndsWithSlashFree(p: string, b: string, ext: string)
    requires EndsWith(p, b)
    requires |b| < |p| ==> p[|p| - |b| - 1] == '/'
    requires '/' !in ext
    ensures EndsWith(p, ext) <==> EndsWith(b, ext)
  {
    if EndsWith(p, ext) && |ext| > |b| {
      assert false;
    }
    if EndsWith(p, ext) {
      assert b[|b| - |ext|..] == p[|p| - |ext|..];
    }
    if EndsWith(b, ext) {
      assert b[|b| - |ext|..] == p[|p| - |ext|..];
    }
  }

  /** The watcher filters the whole event path while preload filters the bare
      file name; both give the same verdict because the extensions hold no '/'. */
  lemma {:induction false} PathFilterAgreesWithNameFilter(p: string)
    ensures IsImageName(p) <==> IsImageName(Basename(p))
  {
    var b := Basename(p);
    var lp, lb := Lower(p), Lower(b);
    assert lp[|lp| - |lb|..] == lb by {
      forall i | 0 <= i < |lb| ensures lp[|lp| - |lb|..][i] == lb[i] {
        assert p[|p| - |b|..][i] == b[i];
      }
    }
    if |lb| < |lp| {
      assert lp[|lp| - |lb| - 1] == LowerChar(p[|p| - |b| - 1]) == '/';
    }
    EndsWithSlashFree(lp, lb, ".jpg");
    EndsWithSlashFree(lp, lb, ".jpeg");
    EndsWithSlashFree(lp, lb, ".png");
  }

  /** Any name ending in ".jpg" exactly passes the filter. */
  lemma JpgSuffixPasses(s: string)
    requires EndsWith(s, ".jpg")
    ensures IsImageName(s)
  {
    var l := Lower(s);
    assert l[|l| - 4..] == ".jpg" by {
      forall i | 0 <= i < 4 ensures l[|l| - 4..][i] == ".jpg"[i] {
        assert s[|s| - 4..][i] == ".jpg"[i];
      }
    }
  }
}

=== FILE: store.dfy ===
/** The in-memory face list FACE_DB and the three ways it is written: the
    startup scan (preload_faces), the watcher's creation handler (on_created),
    and the file name the manual upload endpoint (add_face) saves under. */
module Store {
  import opened Wrappers
  import opened Paths

  type Embedding = seq<real>

  /** The face extractor, applied to a file path; None stands for any
      exception it raises (no face, unreadable file, empty result list). */
  type Extractor = string -> Option<Embedding>

  /** One entry of FACE_DB: the full file name (extension included) and its
      embedding. */
  datatype FaceRecord = FaceRecord(name: string, embedding: Embedding)

  /** The part of a watchdog creation event the handler reads. */
  datatype CreatedEvent = CreatedEvent(srcPath: string, isDirectory: bool)

  function Names(db: seq<FaceRecord>): (ns: seq<string>)
    ensures |ns| == |db|
    ensures forall i :: 0 <= i < |db| ==> ns[i] == db[i].name
  {
    seq(|db|, i requires 0 <= i < |db| => db[i].name)
  }

  /** Every record was named by a file that passes the image filter. */
  predicate AllImageNames(db: seq<FaceRecord>) {
    forall i :: 0 <= i < |db| ==> IsImageName(db[i].name)
  }

  /** What one listing entry contributes to the startup scan: a record when
      the name passes the filter and extraction of `dir/f` succeeds, else nothing. */
  function LoadOne(dir: string, f: string, extract: Extractor): seq<FaceRecord> {
    if !IsImageName(f) then []
    else match extract(Join(dir, f))
      case None => []
      case Some(e) => [FaceRecord(f, e)]
  }

  /** FACE_DB after preload_faces over a directory listing, in listing order. */
  function Preload(dir: string, listing: seq<string>, extract: Extractor): (db: seq<FaceRecord>)
    ensures |db| <= |listing|
    decreases |listing|
  {
    if |listing| == 0 then []
    else Preload(dir, listing[..|listing| - 1], extract) + LoadOne(dir, listing[|listing| - 1], extract)
  }

  /** The scan is compositional: scanning `a` then `b` gives the records of
      `a` followed by those of `b`. */
  lemma {:induction false} PreloadConcat(dir: string, a: seq<string>, b: seq<string>, extract: Extractor)
    ensures Preload(dir, a + b, extract) == Preload(dir, a, extract) + Preload(dir, b, extract)
    decreases |b|
  {
    if |b| == 0 {
      assert a + b == a;
    } else {
      var b' := b[..|b| - 1];
      assert (a + b)[..|a + b| - 1] == a + b';
      PreloadConcat(dir, a, b', extract);
    }
  }

  /** Scanning one more entry appends that entry's contribution. */
  lemma PreloadSnoc(dir: string, a: seq<string>, f: string, extract: Extractor)
    ensures Preload(dir, a + [f], extract) == Preload(dir, a, extract) + LoadOne(dir, f, extract)
  {
    assert (a + [f])[..|a|] == a;
  }

  /** A file that is skipped (wrong extension or failed extraction) does not
      stop the scan: the files after it are still loaded. */
  lemma SkippedFileDoesNotAbort(dir: string, a: seq<string>, f: string, b: seq<string>, extract: Extractor)
    requires !IsImageName(f) || extract(Join(dir, f)).None?
    ensures Preload(dir, a + [f] + b, extract) == Preload(dir, a, extract) + Preload(dir, b, extract)
  {
    PreloadConcat(dir, a + [f], b, extract);
    PreloadSnoc(dir, a, f, extract);
  }

  /** A record is in the preloaded list exactly when its file is listed,
      passes the filter, and extracts to its embedding. */
  lemma {:induction false} PreloadMembership(dir: string, listing: seq<string>, extract: Extractor, r: FaceRecord)
    ensures r in Preload(dir, listing, extract) <==>
      r.name in listing && IsImageName(r.name) && extract(Join(dir, r.name)) == Some(r.embedding)
    decreases |listing|
  {
    if |listing| > 0 {
      var init := listing[..|listing| - 1];
      var last := listing[|listing| - 1];
      PreloadMembership(dir, init, extract, r);
      assert listing == init + [last];
      assert r.name in listing <==> r.name in init || r.name == last;
    }
  }

  /** Every record the startup scan keeps is named by an image file. */
  lemma {:induction false} PreloadKeepsImageNames(dir: string, listing: seq<string>, extract: Extractor)
    ensures AllImageNames(Preload(dir, listing, extract))
    decreases |listing|
  {
    if |listing| > 0 {
      PreloadKeepsImageNames(dir, listing[..|listing| - 1], extract);
    }
  }

  /** preload_faces as app/main.py writes it: clear the list, then one pass
      over the listing that appends a record per loadable image. */
  method PreloadFaces(dir: string, listing: seq<string>, extract: Extractor) returns (db: seq<FaceRecord>)
    ensures db == Preload(dir, listing, extract)
  {
    db := [];
    var i := 0;
    while i < |listing|
      invariant 0 <= i <= |listing|
      invariant db == Preload(dir, listing[..i], extract)
    {
      var file := listing[i];
      if IsImageName(file) {
        var path := Join(dir, file);
        match extract(path) {
          case Some(e) => db := db + [FaceRecord(file, e)];
          case None =>
        }
      }
      assert listing[..i + 1][..i] == listing[..i];
      i := i + 1;
    }
    assert listing[..i] == listing;
  }

  /** FACE_DB after the watcher handles one creation event: directories,
      non-image paths and failed extractions leave it as it was; otherwise one
      record named by the path's basename is appended. */
  function OnCreated(db: seq<FaceRecord>, ev: CreatedEvent, extract: Extractor): (r: seq<FaceRecord>)
    ensures |db| <= |r| <= |db| + 1
    ensures r[..|db|] == db
    ensures |r| == |db| + 1 <==> !ev.isDirectory && IsImageName(ev.srcPath) && extract(ev.srcPath).Some?
    ensures |r| == |db| + 1 ==> r[|db|] == FaceRecord(Basename(ev.srcPath), extract(ev.srcPath).value)
  {
    if ev.isDirectory then db
    else if !IsImageName(ev.srcPath) then db
    else match extract(ev.srcPath)
      case None => db
      case Some(e) => db + [FaceRecord(Basename(ev.srcPath), e)]
  }

  /** The handler keeps every record's name an image name, the same invariant
      the startup scan establishes. */
  lemma OnCreatedKeepsImageNames(db: seq<FaceRecord>, ev: CreatedEvent, extract: Extractor)
    requires AllImageNames(db)
    ensures AllImageNames(OnCreated(db, ev, extract))
  {
    PathFilterAgreesWithNameFilter(ev.srcPath);
  }

  /** The handler never replaces: a successful event for a name already in
      the list adds a second entry under that name. */
  lemma OnCreatedAppendsDuplicate(db: seq<FaceRecord>, ev: CreatedEvent, extract: Extractor)
    requires !ev.isDirectory && IsImageName(ev.srcPath) && extract(ev.srcPath).Some?
    ensures multiset(Names(OnCreated(db, ev, extract)))
         == multiset(Names(db)) + multiset{Basename(ev.srcPath)}
  {
    var r := OnCreated(db, ev, extract);
    assert Names(r) == Names(db) + [Basename(ev.srcPath)];
  }

  /** One call of the creation handler: the event, and the extractor as it
      reads the file at that moment. A file deleted and created again with
      new content is two steps whose extractors differ on its path. */
  datatype WatchStep = WatchStep(event: CreatedEvent, extract: Extractor)

  /** FACE_DB after the watcher handles a sequence of events in order. */
  function Replay(db: seq<FaceRecord>, steps: seq<WatchStep>): seq<FaceRecord>
    decreases |steps|
  {
    if |steps| == 0 then db
    else
      var last := steps[|steps| - 1];
      OnCreated(Replay(db, steps[..|steps| - 1]), last.event, last.extract)
  }

  /** However many events the watcher handles, and whatever the files hold
      when each is read, the records already in the list stay where they
      were, unchanged, and each event adds at most one. */
  lemma {:induction false} ReplayOnlyAppends(db: seq<FaceRecord>, steps: seq<WatchStep>)
    ensures |db| <= |Replay(db, steps)| <= |db| + |steps|
    ensures Replay(db, steps)[..|db|] == db
    decreases |steps|
  {
    if |steps| > 0 {
      var last := steps[|steps| - 1];
      var mid := Replay(db, steps[..|steps| - 1]);
      ReplayOnlyAppends(db, steps[..|steps| - 1]);
      var r := OnCreated(mid, last.event, last.extract);
      assert r[..|mid|] == mid;
      assert r[..|db|] == mid[..|db|];
    }
  }

  /** A handled event whose path passes the filter and extracts appends
      exactly one record. */
  lemma OnCreatedSuccess(db: seq<FaceRecord>, ev: CreatedEvent, extract: Extractor)
    requires !ev.isDirectory && IsImageName(ev.srcPath) && extract(ev.srcPath).Some?
    ensures OnCreated(db, ev, extract) == db + [FaceRecord(Basename(ev.srcPath), extract(ev.srcPath).value)]
  {
  }

  /** Replaying one more step applies the handler to the list so far. */
  lemma ReplaySnoc(db: seq<FaceRecord>, steps: seq<WatchStep>, s: WatchStep)
    ensures Replay(db, steps + [s]) == OnCreated(Replay(db, steps), s.event, s.extract)
  {
    assert (steps + [s])[..|steps|] == steps;
  }

  /** A file created, deleted and created again with new content: both
      extractions are kept, the stale record first, under the same name. */
  lemma RecreatedFileKeepsStaleRecord(db: seq<FaceRecord>, ev: CreatedEvent, before: Extractor, after: Extractor)
    requires !ev.isDirectory && IsImageName(ev.srcPath)
    requires before(ev.srcPath).Some? && after(ev.srcPath).Some?
    ensures Replay(db, [WatchStep(ev, before), WatchStep(ev, after)])
         == db + [FaceRecord(Basename(ev.srcPath), before(ev.srcPath).value)]
               + [FaceRecord(Basename(ev.srcPath), after(ev.srcPath).value)]
  {
    var first := FaceRecord(Basename(ev.srcPath), before(ev.srcPath).value);
    ReplaySnoc(db, [], WatchStep(ev, before));
    OnCreatedSuccess(db, ev, before);
    assert [] + [WatchStep(ev, before)] == [WatchStep(ev, before)];
    assert Replay(db, []) == db;
    ReplaySnoc(db, [WatchStep(ev, before)], WatchStep(ev, after));
    OnCreatedSuccess(db + [first], ev, after);
    assert [WatchStep(ev, before)] + [WatchStep(ev, after)] == [WatchStep(ev, before), WatchStep(ev, after)];
  }

  /** The creation events the watcher would see if the listed files were
      dropped into `dir` one after another, each read with `extract`. */
  function FileEvents(dir: string, listing: seq<string>, extract: Extractor): (steps: seq<WatchStep>)
    ensures |steps| == |listing|
    decreases |listing|
  {
    if |listing| == 0 then []
    else
      FileEvents(dir, listing[..|listing| - 1], extract)
        + [WatchStep(CreatedEvent(Join(dir, listing[|listing| - 1]), false), extract)]
  }

  /** A creation event for `dir/f`, with `f` a plain file name, has the same
      effect on the list as the startup scan's step for `f`. */
  lemma FileEventLikeLoadOne(db: seq<FaceRecord>, dir: string, f: string, extract: Extractor)
    requires '/' !in f
    ensures OnCreated(db, CreatedEvent(Join(dir, f), false), extract) == db + LoadOne(dir, f, extract)
  {
    BasenameOfJoin(dir, f);
    PathFilterAgreesWithNameFilter(Join(dir, f));
  }

  /** The startup scan and the watcher agree: preloading a listing of plain
      files builds the same list as the watcher handling one creation event
      per file, in the same order, starting from an empty list. */
  lemma {:induction false} PreloadAgreesWithWatcher(dir: string, listing: seq<string>, extract: Extractor)
    requires forall i :: 0 <= i < |listing| ==> '/' !in listing[i]
    ensures Preload(dir, listing, extract) == Replay([], FileEvents(dir, listing, extract))
    decreases |listing|
  {
    if |listing| > 0 {
      var n := |listing| - 1;
      var f := listing[n];
      var init := FileEvents(dir, listing[..n], extract);
      var ev := CreatedEvent(Join(dir, f), false);
      var prev := Preload(dir, listing[..n], extract);
      calc {
        Replay([], FileEvents(dir, listing, extract));
        { assert (init + [WatchStep(ev, extract)])[..n] == init; }
        OnCreated(Replay([], init), ev, extract);
        { PreloadAgreesWithWatcher(dir, listing[..n], extract); }
        OnCreated(prev, ev, extract);
        { FileEventLikeLoadOne(prev, dir, f, extract); }
        prev + LoadOne(dir, f, extract);
        Preload(dir, listing, extract);
      }
    }
  }

  /** The name add_face saves an upload under. */
  function AddFaceFilename(name: string): (f: string)
    ensures IsImageName(f)
  {
    JpgSuffixPasses(name + ".jpg");
    name + ".jpg"
  }

  /** The path add_face writes to: `<name>.jpg` joined onto the gallery
      directory (a name starting with '/' leaves that directory). */
  function AddFaceSavePath(name: string): (p: string)
    ensures IsImageName(p)
  {
    var p := Join(KnownFacesDir, AddFaceFilename(name));
    JoinEndsWithName(KnownFacesDir, AddFaceFilename(name));
    JpgSuffixPasses(p);
    p
  }

  /** When add_face creates `<name>.jpg` as a new file under a plain name
      and extracting the saved file succeeds, the watcher's creation event
      for it appends one record whose name is that name plus ".jpg".
      Overwriting an existing file raises no creation event, so this lemma
      says nothing about that case. */
  lemma AddFaceIsIngested(db: seq<FaceRecord>, name: string, extract: Extractor)
    requires '/' !in name
    requires extract(AddFaceSavePath(name)).Some?
    ensures OnCreated(db, CreatedEvent(AddFaceSavePath(name), false), extract)
         == db + [FaceRecord(name + ".jpg", extract(AddFaceSavePath(name)).value)]
  {
    BasenameOfJoin(KnownFacesDir, name + ".jpg");
  }

  /** add_face stores whatever bytes it is given. When the saved file does
      not extract, the watcher's handler appends nothing and the upload is
      never loaded. */
  lemma AddFaceUnreadableIsIgnored(db: seq<FaceRecord>, name: string, extract: Extractor)
    requires extract(AddFaceSavePath(name)).None?
    ensures OnCreated(db, CreatedEvent(AddFaceSavePath(name), false), extract) == db
  {
  }
}

=== FILE: wrappers.dfy ===
/** The optional value used wherever the service has "nothing yet" or "failed":
    an extraction that raised, or the running minimum before the first record. */
module Wrappers {

  datatype Option<+T> = None | Some(value: T)

}
